=== FILE: README.md ===
# ThoughtForm core — a Dafny model

The page shows one 3D "core": an icosahedron cut into twenty independently
placed faces, and a dodecahedron centred on the same origin inside the same
group, shown only in one section. The repository also holds a "baguette
skateboard" component of three slices and four wheels. No shown file mounts
it: App.tsx renders Scene, and Scene renders only CoreGeometry. It is
modelled on its own, as a component the page could mount. A 2D overlay
and a navigation menu choose one of four sections: '01' Structural Shift,
'02' Deconstruction, '03' Design & Color and '04' Graffiti & Style.
Positions, rotations, scales, slice and wheel colours and the background are
tweened towards a target. The face material, wireframe, decals and wheel
emissive colour switch at once. The wheel spin and the bob are per-frame
updates. Every target and every switched look depends only on the app state
`(activeSection, exploded, hoveredPart)`, the object's current transform
and, in Deconstruction, random draws.

This project models those decision rules as pure Dafny functions and proves
what they promise:

- `Sections`: the section, written `NoSection | S(id)`. Any string is a
  legal id, so ids outside the catalogue fall through to the defaults, as in
  the code. The module also holds the four `activeSection === '0k'` flags,
  JavaScript truthiness, and a `Mode` classification.
- `Menu` (types.ts): the four-item catalogue and the `find` lookup on it.
- `App` (App.tsx): the state record, the callbacks that update it, the
  separately held `menuOpen` flag, the background colour, an event-sequence
  semantics `Run`, and the invariant "Deconstruction is always exploded". The
  invariant is kept by every event.
- `CoreGeometry` (components/CoreGeometry.tsx): face decomposition, the
  targets of the section effect, materials, wireframe, decals and hover ids.
- `Decimal`: the decimal rendering `${i}` used in face hover ids, with its
  inverse.
- `Skateboard` (components/BaguetteSkateboard.tsx): slice heights, wheel
  fly-out, slice and wheel looks, the kickflip, and the per-frame wheel spin
  and bob.
- `Overlay` (components/Overlay.tsx): the string and boolean choices of the
  overlay.
- `Effects`: which effects run again on a state change, from their
  dependency lists, and what that means for the spin and the kickflip.
- `Coherence`: facts that span files. The explode button's label agrees with
  the core's explosion in every reachable state. The street features switch
  on together. Hovering a face records an id from which the face index can be
  read back.

The multiplier is 2 or 1 and the dodecahedron scale 1.2
(components/CoreGeometry.tsx:97, 113). Faces are glass, or iridescent in
Design & Color (164). Decals go on every third face (177). A section id
outside the catalogue selects the default branch of every `===` test, but
the overlay's banner visibility (components/Overlay.tsx:60), status dot
(81) and heading (83) test truthiness, so they react to any non-empty id
(`Coherence.UnknownSectionOverlay`). App.tsx types its state
as `SkateboardState`, but types.ts declares only `AppState`. The model uses
the four fields `AppState` declares. The menu item field `label` is a Dafny
keyword, so the model calls it `caption`. `Math.PI` is the real
3.141592653589793.

## Model

| member | source | states |
|---|---|---|
| Sections.ModeOf | components/CoreGeometry.tsx:89-92 | the four section flags are each captured by one mode, so at most one holds; all other ids, and no section, are Idle |
| Sections.FlagsExclusive | components/CoreGeometry.tsx:89-92 | no two of the four section flags hold at once |
| Sections.FlaggedIsTruthy | components/Overlay.tsx:81 | every catalogue section is truthy, so a truthiness test never misses one |
| Menu.Find | components/Overlay.tsx:22 | `find` returns an item iff some item's id equals the section, and then the first such item; a null section matches nothing |
| Menu.CatalogueShape | types.ts:21-42 | exactly four items with ids '01','02','03','04' in that order, pairwise distinct, with non-empty labels |
| Menu.FindUnique | types.ts:21-42 | with distinct ids, lookup by an item's id returns that very item |
| Menu.CatalogueLabels | types.ts:21-42 | each section's item is labelled STRUCTURAL SHIFT, DECONSTRUCTION, DESIGN & COLOR and GRAFFITI & STYLE respectively |
| Menu.CatalogueCoversModes | types.ts:21-42 | lookup succeeds exactly for the four flagged sections |
| Menu.FindCatalogue | components/Overlay.tsx:22 | on the catalogue, each flagged section finds its own item and every other section, including null, finds none |
| App.Initial | App.tsx:12-17 | the page starts collapsed, not rotating, with nothing hovered and no section |
| App.InitialPage | App.tsx:12-19 | the page also starts with the menu closed |
| App.ToggleExplode | App.tsx:22-28 | `exploded` flips; collapsing clears the section, exploding keeps it; hover and rotation are untouched |
| App.SetActiveSection | App.tsx:30-40 | the section becomes the id; the core is exploded iff the id is '02', whatever it was before; hover and rotation are untouched |
| App.HandleHover | App.tsx:57-59 | only `hoveredPart` changes, to the reported part |
| App.OrbitStart | App.tsx:96 | orbit start sets `rotating` and changes nothing else |
| App.OrbitEnd | App.tsx:97 | orbit end clears `rotating` and changes nothing else |
| App.BackgroundColor | App.tsx:46-48 | #121212 iff Design & Color, #0044CC iff Graffiti & Style, #0066FF for everything else including no section |
| App.GraffitiLayerActive | App.tsx:64 | the tag layer is active exactly in street mode |
| App.Step | App.tsx:78-97 | the menu button (components/Overlay.tsx:48) negates `menuOpen`, and close and the menu links (128, 139) set it false, leaving the state record alone; every other event applies its App callback and leaves `menuOpen` alone: a core click (App.tsx:79) or the explode button (Overlay.tsx:92) toggles, navigation (Overlay.tsx:106) selects, pointer over/out (CoreGeometry.tsx:160-161, App.tsx:78) hovers, orbit start/end (App.tsx:96-97) sets `rotating` |
| App.StepPreservesConsistent | App.tsx:22-40 | every event keeps "section '02' implies exploded" |
| App.RunConsistent | App.tsx:22-40 | every state reachable from the initial page keeps "section '02' implies exploded" |
| App.RunHover | App.tsx:57-59 | after any events the hovered part is the one the last hover report gave, or the initial one |
| App.ToggleTwice | App.tsx:25-26 | exploding then collapsing from a collapsed state gives a collapsed state with no section and nothing else changed |
| App.SelectForgetsExplode | App.tsx:30-40 | the state after choosing a section does not depend on the prior `exploded` |
| App.MenuToggleTwice | components/Overlay.tsx:48-139 | the menu button twice restores the page; closing twice equals closing once |
| CoreGeometry.MakeFace | components/CoreGeometry.tsx:58-66 | a face's center is the mean of its three vertices; its local vertices sum to zero and, shifted by the center, give back the originals |
| CoreGeometry.Decompose | components/CoreGeometry.tsx:53-70 | one face per consecutive vertex triple, so the face count is the vertex count over 3; face k is built from vertices 3k, 3k+1, 3k+2 and reproduces them at its center |
| CoreGeometry.Multiplier | components/CoreGeometry.tsx:113 | the multiplier is 2 iff Deconstruction or exploded, else 1 |
| CoreGeometry.FacePositionTarget | components/CoreGeometry.tsx:112-118 | at multiplier 1 the face returns exactly to its rest centroid; otherwise it is displaced by one more centroid, away from the origin |
| CoreGeometry.FaceRotationTarget | components/CoreGeometry.tsx:121-125 | x and y targets lie in [0, π) in Deconstruction and are 0 otherwise; z is never targeted |
| CoreGeometry.DodecahedronTarget | components/CoreGeometry.tsx:95-107 | uniform scale 1.2 and y rotation π exactly in Structural Shift, else scale 0 and rotation 0 |
| CoreGeometry.IcosahedronScale | components/CoreGeometry.tsx:130-137 | 0 iff Structural Shift, 1.1 iff Design & Color, 1 otherwise; it does not depend on `exploded` |
| CoreGeometry.SpinTarget | components/CoreGeometry.tsx:140-146 | in one effect run, a spin is issued iff street mode, and it adds exactly 4π to the current yaw |
| CoreGeometry.Retarget | components/CoreGeometry.tsx:88-148 | one effect run gives one position and one tilt per face: face k goes back to its centroid when collapsed outside Deconstruction and to twice its centroid otherwise; its tilt is zero outside Deconstruction and, in it, its own two draws times π on x and y, so within [0, π); the solids and the spin get their own section targets |
| CoreGeometry.FaceSurface | components/CoreGeometry.tsx:164 | faces are iridescent iff Design & Color, glass otherwise |
| CoreGeometry.Wireframe | components/CoreGeometry.tsx:167-173 | magenta iff street mode, else white; opacity 1 iff Structural Shift, else 0.4 |
| CoreGeometry.DecalCount | components/CoreGeometry.tsx:177 | in street mode ⌈n/3⌉ of the first n faces carry a decal (those with index % 3 == 0); in every other section none do |
| CoreGeometry.FaceHoverId | components/CoreGeometry.tsx:160 | the hover id is "face_" followed by the canonical decimal numeral of the index |
| CoreGeometry.FaceHover | components/CoreGeometry.tsx:160-161 | pointer-over reports the face's id; pointer-out reports null |
| CoreGeometry.ParseFaceHoverId | components/CoreGeometry.tsx:160 | a string reads back as a face index iff it is "face_" followed by a canonical numeral |
| CoreGeometry.FaceHoverIdRoundTrip | components/CoreGeometry.tsx:160 | the index read back from face i's id is i, and i's id is the only string that reads back as i |
| CoreGeometry.FaceHoverIdInjective | components/CoreGeometry.tsx:160 | two faces never report the same id |
| CoreGeometry.OneSolidVisible | components/CoreGeometry.tsx:95-137 | in every section exactly one of the dodecahedron and the icosahedron has non-zero scale |
| CoreGeometry.RetargetDeterministic | components/CoreGeometry.tsx:109-127 | outside Deconstruction, two effect runs on the same inputs request identical targets whatever the random draws |
| CoreGeometry.CollapseRestores | components/CoreGeometry.tsx:112-118 | collapsed and outside Deconstruction, every face is sent back to its rest centroid |
| Decimal.NatToString | components/CoreGeometry.tsx:160 | `${i}` renders a canonical numeral: non-empty digits, no leading zero, one digit iff i < 10 |
| Decimal.ParseNatToString | components/CoreGeometry.tsx:160 | parsing the rendered numeral gives back the index |
| Decimal.NatToStringParse | components/CoreGeometry.tsx:160 | rendering the parsed value of a canonical numeral gives back the numeral |
| Decimal.NatToStringInjective | components/CoreGeometry.tsx:160 | distinct indices render to distinct numerals |
| Skateboard.SliceY | components/BaguetteSkateboard.tsx:68-76 | slice i targets (i−1)·0.4 in Deconstruction, else (i−1)·0.23; the middle slice always targets 0 |
| Skateboard.SlicesOrdered | components/BaguetteSkateboard.tsx:68-76 | slices stay stacked in index order, and Deconstruction strictly widens every gap |
| Skateboard.WheelTarget | components/BaguetteSkateboard.tsx:80-90 | flown out (exploded or '02'), a wheel targets ±1.5 on x and y with the sign of its current coordinate (0 counts as negative) and z = 1.5; otherwise y = 0.4 for i < 2 else −0.4, x = −1.5 for even i else 1.5, z = 0.6 |
| Skateboard.WheelTargetIdempotent | components/BaguetteSkateboard.tsx:80-90 | re-running the effect from the target position requests the same target again |
| Skateboard.WheelTargetsDistinct | components/BaguetteSkateboard.tsx:80-90 | the four collapsed wheel targets are pairwise distinct, and so are the fly-out targets of wheels resting there |
| Skateboard.FlyOutMovesOutward | components/BaguetteSkateboard.tsx:80-90 | flying out from rest keeps x, raises z and moves y further from 0 |
| Skateboard.SliceMaterial | components/BaguetteSkateboard.tsx:39-59 | carbon colour, metalness 0.9, roughness 0.2 iff Structural Shift; bread colour, 0.1, 0.7 otherwise |
| Skateboard.WheelGlow | components/BaguetteSkateboard.tsx:93-112 | wheels glow (intensity 2, cyan colour and emissive) iff Design & Color; otherwise intensity 0, default colour, black emissive |
| Skateboard.Kickflip | components/BaguetteSkateboard.tsx:114-124 | in one effect run, a kickflip is issued iff street mode, adding exactly 2π to x and z and nothing to y |
| Skateboard.SpinFrames | components/BaguetteSkateboard.tsx:128-132 | after n frames a wheel has turned n·0.05 if collapsed and not in Deconstruction, and not at all otherwise |
| Skateboard.Bob | components/BaguetteSkateboard.tsx:134-136 | while collapsed the board's height is the wave times 0.05, within ±0.05; while exploded it is left alone |
| Skateboard.SliceHoverId | components/BaguetteSkateboard.tsx:149 | the slices' hover id is never read as a face index |
| Overlay.SectionColor | components/Overlay.tsx:14-20 | cyan iff '01', black iff '02', pink iff '04', orange for '03' and every other value including null |
| Overlay.BannerText | components/Overlay.tsx:22-31 | SYSTEM ONLINE in street mode, else the matching item's label, else REASSEMBLED |
| Overlay.BannerNamesSection | components/Overlay.tsx:22-31 | the banner reads REASSEMBLED exactly for sections outside the catalogue and names each of the first three sections |
| Overlay.BannerVisibility | components/Overlay.tsx:60 | the banner is hidden iff collapsed with a null or empty section: hidden at start, shown by exploding or by choosing a non-empty id, hidden by collapsing |
| Overlay.TextColor | components/Overlay.tsx:34 | overlay text is black iff Deconstruction, white otherwise |
| Overlay.Subtitle | components/Overlay.tsx:43 | the subtitle reads DECRYPTION_IN_PROGRESS iff street mode |
| Overlay.TextColorMatchesTitle | components/Overlay.tsx:34 | the overlay text is black exactly when the title word is black: both mean Deconstruction |
| Overlay.StatusDot | components/Overlay.tsx:81 | the dot is green iff the section is truthy and orange otherwise, so its black branch is unreachable |
| Overlay.StatusHeading | components/Overlay.tsx:83 | 'Node_v' + id when a section is set, 'Awaiting_Input' otherwise |
| Overlay.Description | components/Overlay.tsx:88 | the matching item's description, else the default text |
| Overlay.ExplodeButtonLabel | components/Overlay.tsx:97 | 'Collapse Core' iff exploded, 'Explode View' iff not |
| Overlay.ExplodeButtonStyle | components/Overlay.tsx:93-95 | pink whenever exploded, whatever the section; the black Deconstruction style only when collapsed in '02' |
| Coherence.ReachableConsistent | App.tsx:22-40 | every reachable state has "section '02' implies exploded" |
| Coherence.ButtonTellsExplosion | components/Overlay.tsx:97 | in a consistent state the faces are doubled exactly when the button offers to collapse; so would be the skateboard's wheels, were it mounted |
| Coherence.ButtonNeedsConsistency | components/CoreGeometry.tsx:113 | in the unreachable state '02' and collapsed, the core is doubled while the button says 'Explode View' |
| Coherence.DeconButtonUnreachable | components/Overlay.tsx:93-95 | after any events from the start the black Deconstruction button style never shows, and the multiplier is 2 iff exploded |
| Coherence.StreetFeaturesAgree | App.tsx:64 | tag layer, decals, street-blue background, main-group spin, skateboard kickflip (a component the page does not mount), magenta wireframe, SYSTEM ONLINE banner and DECRYPTION_IN_PROGRESS subtitle are all on for exactly the same section; this is about the section each is computed from, not about when each effect re-runs (see `Effects`) |
| Coherence.StreetDecalsOnIcosahedron | components/CoreGeometry.tsx:177 | the 20-face core carries 7 decals in street mode and none otherwise |
| Coherence.HoverThenLeave | components/CoreGeometry.tsx:160-161 | after pointer-over on face i the shell holds an id that reads back as i; after pointer-out it holds null |
| Coherence.LastFaceHovered | App.tsx:57-59 | when the last event is pointer-over on face i, the hovered id reads back as i |
| Coherence.UnknownSectionLooksIdle | components/CoreGeometry.tsx:88-177 | an id outside the catalogue gets the same face positions and tilts, solid targets, spin, materials, wireframe and decals as no section, and likewise the same background, slice heights and looks, kickflip, wheel spin, wheel glow and wheel targets |
| Coherence.UnknownSectionOverlay | components/Overlay.tsx:60-88 | an id outside the catalogue gets the no-section colour, banner text and description; a non-empty one, unlike no section, shows the banner over a collapsed core, turns the status dot green and is named in the status heading |
| Coherence.ShiftToStreet | components/CoreGeometry.tsx:95-146 | going from '01' straight to '04', the dodecahedron goes from 1.2 to 0 and the spin starts in the same effect run |
| Effects.Deps | components/CoreGeometry.tsx:148 | every effect's dependency list names the section; exactly the core's (line 148) and the wheels' (BaguetteSkateboard.tsx:91) also name `exploded` |
| Effects.Reruns | components/BaguetteSkateboard.tsx:59-124 | an effect runs again only when the state changed; every effect runs again when the section changes, and with the section unchanged only the core and wheel effects can, when `exploded` changes |
| Effects.CoreRequest | components/CoreGeometry.tsx:88-148 | the core's effect requests targets iff the section or `exploded` changed, and then exactly the targets of the new state |
| Effects.KickflipRequest | components/BaguetteSkateboard.tsx:115-124 | the skateboard requests a kickflip iff the section changed into street mode, and then the section's kickflip |
| Effects.ExplodeInStreetRespins | App.tsx:22-27 | exploding a collapsed core in '04' keeps the section, so the core issues another 4π spin while the kickflip and the background are not re-issued |
| Effects.ReselectReruns | App.tsx:30-39 | choosing the current section again re-runs the core and wheel effects iff that changes `exploded`, and no section-only effect |
| Effects.ReselectDeconKeepsTilts | App.tsx:30-39 | in a consistent state, choosing '02' again requests no new core targets, so the faces keep their earlier tilts |
| Effects.QuietEventsRerunNothing | App.tsx:57-97 | hover, orbit and menu events re-run no effect |

## Left out

- components/Scene.tsx: the per-frame sine bob, the constant yaw of 0.005 per frame and the extra 0.05 per frame in '04' (Scene.tsx:24-25). Scene's frame loop is left out as a whole, so its street-mode yaw is not modelled. The only section rule in it is that extra yaw in '04', and nothing else on the page reads it.
- components/GraffitiLayer.tsx: the DOM stroke tweens are presentational. Whether the layer is mounted at all is `App.GraffitiLayerActive`.
- Effect scheduling: only whether an effect re-runs on a state change is modelled (`Effects`), after React's rule of comparing its dependency list (App.tsx:55, components/CoreGeometry.tsx:148, components/BaguetteSkateboard.tsx:59, 91, 112, 124). The first run at mount, React's render batching and the order in which effects run are not. Each effect's own contract describes one run of it.
- Tween timing, easing and interpolation (gsap): only the target each call requests is modelled, not how values move over time. The entrance `gsap.from` scale animations are left out for the same reason.
- three.js internals: the IcosahedronGeometry vertex data (60 positions, 20 faces), normals, material objects, rendering, lights, camera and OrbitControls. `Decompose` takes the position attribute as a parameter.
- CoreGeometry.Decompose: requires a whole number of vertex triples, as a non-indexed triangle geometry always provides. A trailing partial triple would read undefined coordinates (NaN), which reals cannot express.
- CoreGeometry.FaceRotationTarget: `Math.random()` is a parameter in [0, 1). No distribution is modelled.
- Skateboard.Bob: `Math.sin(time * 2)` is a parameter in [−1, 1]. The clock is not modelled.
- Floating-point rounding: coordinates, scales and π are exact reals, so `(i - 1) * 0.23` and `center / 3` are exact.
- The `ref.current` null checks: a node that is not mounted simply receives no tween. The model describes the targets of mounted nodes.
- Overlay markup: the banner's per-section class string (lines 62-70), the menu-button bars (52-54) and the per-item navigation highlight (109-119) are Tailwind layout, not decisions the rest of the page reads.
- Pointer click propagation (`e.stopPropagation()` then `onClick`): modelled only as the `Explode` event. The DOM event bubbling itself is not modelled.

=== FILE: app.dfy ===
/**
 * The application shell of App.tsx: the shared state record, the callbacks
 * that update it (explode toggle, section choice, hover report, orbit
 * start/end), the menu flag it owns for the overlay, and the background
 * colour it tweens to per section.
 */
module App {
  import opened Options
  import opened Sections

  /** The four fields of the state record declared in types.ts. */
  datatype AppState = AppState(
    exploded: bool,
    hoveredPart: Option<string>,
    rotating: bool,
    activeSection: Section)

  /** The whole page: the state record plus the separately held menu flag. */
  datatype Page = Page(state: AppState, menuOpen: bool)

  function Initial(): (s: AppState)
    ensures !s.exploded && !s.rotating
    ensures s.hoveredPart == None && s.activeSection == NoSection
  {
    AppState(false, None, false, NoSection)
  }

  function InitialPage(): (p: Page)
    ensures p.state == Initial() && !p.menuOpen
  {
    Page(Initial(), false)
  }

  /**
   * Flips `exploded`; collapsing (leaving the exploded view) also clears the
   * section, exploding keeps it.
   */
  function ToggleExplode(s: AppState): (r: AppState)
    ensures r.exploded != s.exploded
    ensures s.exploded ==> r.activeSection == NoSection
    ensures !s.exploded ==> r.activeSection == s.activeSection
    ensures r.hoveredPart == s.hoveredPart && r.rotating == s.rotating
  {
    s.(exploded := !s.exploded,
       activeSection := if s.exploded then NoSection else s.activeSection)
  }

  /** Selecting a section explodes the core exactly for Deconstruction. */
  function SetActiveSection(s: AppState, id: string): (r: AppState)
    ensures r.activeSection == S(id)
    ensures r.exploded <==> id == DeconstructionId
    ensures r.hoveredPart == s.hoveredPart && r.rotating == s.rotating
  {
    var shouldExplode := id == DeconstructionId;
    s.(activeSection := S(id), exploded := shouldExplode)
  }

  function HandleHover(s: AppState, part: Option<string>): (r: AppState)
    ensures r.hoveredPart == part
    ensures r.exploded == s.exploded && r.rotating == s.rotating
    ensures r.activeSection == s.activeSection
  {
    s.(hoveredPart := part)
  }

  function OrbitStart(s: AppState): (r: AppState)
    ensures r.rotating
    ensures r.exploded == s.exploded && r.hoveredPart == s.hoveredPart
    ensures r.activeSection == s.activeSection
  {
    s.(rotating := true)
  }

  function OrbitEnd(s: AppState): (r: AppState)
    ensures !r.rotating
    ensures r.exploded == s.exploded && r.hoveredPart == s.hoveredPart
    ensures r.activeSection == s.activeSection
  {
    s.(rotating := false)
  }

  /**
   * The background colour: default blue, overridden by two independent
   * tests for Design & Color and Graffiti & Style.
   */
  function BackgroundColor(sec: Section): (c: string)
    ensures c == "#121212" <==> IsDesign(sec)
    ensures c == "#0044CC" <==> IsStreet(sec)
    ensures c == "#0066FF" <==> !IsDesign(sec) && !IsStreet(sec)
  {
    var base := "#0066FF";
    var afterDesign := if IsDesign(sec) then "#121212" else base;
    if IsStreet(sec) then "#0044CC" else afterDesign
  }

  /** The background tag layer is switched on by Graffiti & Style alone. */
  function GraffitiLayerActive(sec: Section): (active: bool)
    ensures active <==> ModeOf(sec) == Street
  {
    IsStreet(sec)
  }

  /** The discrete events that reach the page. */
  datatype Event =
    | Explode                       // core click or the explode button
    | Select(id: string)            // a navigation item
    | Hover(part: Option<string>)   // pointer over / out on a part
    | OrbitStarted
    | OrbitEnded
    | MenuButton                    // the header menu button
    | MenuClose                     // the close button or a fullscreen link

  function Step(p: Page, e: Event): (q: Page)
    ensures e.MenuButton? ==> q == p.(menuOpen := !p.menuOpen)
    ensures e.MenuClose? ==> q == p.(menuOpen := false)
    ensures !e.MenuButton? && !e.MenuClose? ==> q.menuOpen == p.menuOpen
    ensures e.Explode? ==> q.state == ToggleExplode(p.state)
    ensures e.Select? ==> q.state == SetActiveSection(p.state, e.id)
    ensures e.Hover? ==> q.state == HandleHover(p.state, e.part)
    ensures e.OrbitStarted? ==> q.state == OrbitStart(p.state)
    ensures e.OrbitEnded? ==> q.state == OrbitEnd(p.state)
  {
    match e
    case Explode => p.(state := ToggleExplode(p.state))
    case Select(id) => p.(state := SetActiveSection(p.state, id))
    case Hover(part) => p.(state := HandleHover(p.state, part))
    case OrbitStarted => p.(state := OrbitStart(p.state))
    case OrbitEnded => p.(state := OrbitEnd(p.state))
    case MenuButton => p.(menuOpen := !p.menuOpen)
    case MenuClose => p.(menuOpen := false)
  }

  /** Applies the events in order, the first one first. */
  function Run(p: Page, es: seq<Event>): Page
    decreases |es|
  {
    if |es| == 0 then p else Step(Run(p, es[..|es| - 1]), es[|es| - 1])
  }

  /** Deconstruction is never shown collapsed. */
  predicate Consistent(s: AppState) {
    IsDecon(s.activeSection) ==> s.exploded
  }

  lemma StepPreservesConsistent(p: Page, e: Event)
    requires Consistent(p.state)
    ensures Consistent(Step(p, e).state)
  {
  }

  /** Every state the page can reach from its initial state is consistent. */
  lemma {:induction false} RunConsistent(es: seq<Event>)
    ensures Consistent(Run(InitialPage(), es).state)
    decreases |es|
  {
    if |es| > 0 {
      RunConsistent(es[..|es| - 1]);
      StepPreservesConsistent(Run(InitialPage(), es[..|es| - 1]), es[|es| - 1]);
    }
  }

  /** The hover report of the last Hover event, or `before` if there is none. */
  function LastHover(es: seq<Event>, before: Option<string>): Option<string>
    decreases |es|
  {
    if |es| == 0 then before
    else if es[|es| - 1].Hover? then es[|es| - 1].part
    else LastHover(es[..|es| - 1], before)
  }

  /** Hovering is a single slot: the last report wins, no other event touches it. */
  lemma {:induction false} RunHover(p: Page, es: seq<Event>)
    ensures Run(p, es).state.hoveredPart == LastHover(es, p.state.hoveredPart)
    decreases |es|
  {
    if |es| > 0 {
      RunHover(p, es[..|es| - 1]);
    }
  }

  /** Exploding then collapsing returns to a collapsed view with no section. */
  lemma ToggleTwice(s: AppState)
    requires !s.exploded
    ensures ToggleExplode(ToggleExplode(s)) == s.(activeSection := NoSection)
  {
  }

  /** Choosing a section forgets whether the core was exploded before. */
  lemma SelectForgetsExplode(s: AppState, id: string)
    ensures SetActiveSection(s.(exploded := true), id) == SetActiveSection(s.(exploded := false), id)
  {
  }

  /** The menu button is an involution; closing is idempotent. */
  lemma MenuToggleTwice(p: Page)
    ensures Step(Step(p, MenuButton), MenuButton) == p
    ensures Step(Step(p, MenuClose), MenuClose) == Step(p, MenuClose)
  {
  }
}

=== FILE: coherence.dfy ===
/**
 * Facts that tie the components together: what the page can reach through
 * App's callbacks, and how the overlay, the core and the skateboard agree on
 * the section they show.
 */
module Coherence {
  import opened Options
  import opened Sections
  import opened App
  import opened CoreGeometry
  import opened Skateboard
  import opened Overlay

  /** A state some sequence of events leads to from the initial page. */
  ghost predicate Reachable(s: AppState) {
    exists es: seq<Event> :: Run(InitialPage(), es).state == s
  }

  /** Every reachable state keeps Deconstruction exploded. */
  lemma ReachableConsistent(s: AppState)
    requires Reachable(s)
    ensures Consistent(s)
  {
    var es: seq<Event> :| Run(InitialPage(), es).state == s;
    RunConsistent(es);
  }

  /**
   * In a consistent state the core is doubled exactly when the button offers
   * to collapse it: Deconstruction never doubles a core the button calls
   * collapsed. The second clause is about the skateboard, which the page
   * does not mount: its wheels would fly out on the same condition.
   */
  lemma ButtonTellsExplosion(s: AppState)
    requires Consistent(s)
    ensures Multiplier(s.activeSection, s.exploded) == 2.0
            <==> ExplodeButtonLabel(s.exploded) == "Collapse Core"
    ensures WheelsOut(s.activeSection, s.exploded) <==> s.exploded
  {
  }

  /** Without the invariant the label and the core disagree. */
  lemma ButtonNeedsConsistency()
    ensures var s := AppState(false, None, false, S(DeconstructionId));
            Multiplier(s.activeSection, s.exploded) == 2.0
            && ExplodeButtonLabel(s.exploded) == "Explode View"
  {
  }

  /** The black Deconstruction style of the explode button is never shown. */
  lemma {:induction false} DeconButtonUnreachable(es: seq<Event>)
    ensures ExplodeButtonStyle(Run(InitialPage(), es).state) != DeconStyle
    ensures var s := Run(InitialPage(), es).state;
            Multiplier(s.activeSection, s.exploded) == 2.0 <==> s.exploded
  {
    RunConsistent(es);
  }

  /**
   * Graffiti & Style switches on every street feature together and nothing
   * else does. The kickflip belongs to the skateboard, which the page does
   * not mount; it is included because it keys on the same section.
   */
  lemma StreetFeaturesAgree(sec: Section, yaw: real, rot: Vec3)
    ensures GraffitiLayerActive(sec) == HasDecal(sec, 0)
    ensures HasDecal(sec, 0) == (BackgroundColor(sec) == "#0044CC")
    ensures HasDecal(sec, 0) == SpinTarget(sec, yaw).Some?
    ensures HasDecal(sec, 0) == Kickflip(sec, rot).Some?
    ensures HasDecal(sec, 0) == (Wireframe(sec).color == "#ff00ff")
    ensures HasDecal(sec, 0) == (BannerText(sec) == "SYSTEM ONLINE")
    ensures HasDecal(sec, 0) == (Subtitle(sec) == "DECRYPTION_IN_PROGRESS")
  {
    BannerNamesSection(sec);
  }

  /** The icosahedron carries 7 decals in street mode, one per third face. */
  lemma StreetDecalsOnIcosahedron()
    ensures DecalCount(S(GraffitiStyleId), 20) == 7
    ensures forall sec :: !IsStreet(sec) ==> DecalCount(sec, 20) == 0
  {
  }

  /**
   * Pointing at face i and leaving it again: the shell records the face's
   * id, from which the index can be read back, and then nothing.
   */
  lemma HoverThenLeave(p: Page, i: nat)
    ensures var entered := Step(p, Hover(FaceHover(i, true)));
            ParseFaceHoverId(entered.state.hoveredPart.value) == Some(i)
            && Step(entered, Hover(FaceHover(i, false))).state.hoveredPart == None
  {
    FaceHoverIdRoundTrip(i, "");
  }

  /** After any events, the hovered face is the last one pointed at, if any. */
  lemma LastFaceHovered(p: Page, es: seq<Event>, i: nat)
    requires |es| > 0 && es[|es| - 1] == Hover(FaceHover(i, true))
    ensures ParseFaceHoverId(Run(p, es).state.hoveredPart.value) == Some(i)
  {
    RunHover(p, es);
    FaceHoverIdRoundTrip(i, "");
  }

  /** A section id outside the catalogue gets the no-section targets and looks. */
  lemma UnknownSectionLooksIdle(id: string, exploded: bool, i: nat, cur: Vec3,
                                faces: seq<Face>, rolls: seq<(real, real)>, yaw: real,
                                k: nat, rot: Vec3, rotX: real, frames: nat)
    requires id !in {StructuralShiftId, DeconstructionId, DesignColorId, GraffitiStyleId}
    requires i < WheelCount
    requires |rolls| == |faces| && ValidRolls(rolls)
    ensures Retarget(faces, S(id), exploded, rolls, yaw)
         == Retarget(faces, NoSection, exploded, rolls, yaw)
    ensures HasDecal(S(id), k) == HasDecal(NoSection, k)
    ensures SpinTarget(S(id), yaw) == SpinTarget(NoSection, yaw)
    ensures i < SliceCount ==> SliceY(S(id), i) == SliceY(NoSection, i)
    ensures Kickflip(S(id), rot) == Kickflip(NoSection, rot)
    ensures SpinFrames(S(id), exploded, rotX, frames) == SpinFrames(NoSection, exploded, rotX, frames)
    ensures var u := S(id);
            && Multiplier(u, exploded) == Multiplier(NoSection, exploded)
            && DodecahedronTarget(u) == DodecahedronTarget(NoSection)
            && IcosahedronScale(u) == IcosahedronScale(NoSection)
            && FaceSurface(u) == FaceSurface(NoSection)
            && Wireframe(u) == Wireframe(NoSection)
            && BackgroundColor(u) == BackgroundColor(NoSection)
            && SliceMaterial(u) == SliceMaterial(NoSection)
            && WheelGlow(u) == WheelGlow(NoSection)
            && WheelTarget(u, exploded, i, cur) == WheelTarget(NoSection, exploded, i, cur)
  {
  }

  /**
   * The overlay also treats an unknown id as no section in its colour, banner
   * text and description. Its banner visibility, status dot and status
   * heading test truthiness instead, so a non-empty unknown id shows the
   * banner over a collapsed core, lights the dot green and is named in the
   * heading.
   */
  lemma UnknownSectionOverlay(id: string)
    requires id !in {StructuralShiftId, DeconstructionId, DesignColorId, GraffitiStyleId}
    ensures SectionColor(S(id)) == SectionColor(NoSection)
    ensures BannerText(S(id)) == BannerText(NoSection) == "REASSEMBLED"
    ensures Description(S(id)) == Description(NoSection)
    ensures id != "" ==> StatusHeading(S(id)) == "Node_v" + id != StatusHeading(NoSection)
    ensures id != "" ==> StatusDot(S(id)) == "bg-green-400" != StatusDot(NoSection)
    ensures id != "" ==>
              BannerVisible(AppState(false, None, false, S(id))) &&
              !BannerVisible(AppState(false, None, false, NoSection))
  {
    Menu.FindCatalogue(S(id));
    Menu.FindCatalogue(NoSection);
    assert ("Node_v" + id)[0] == 'N';
  }

  /**
   * Switching straight from Structural Shift to Graffiti & Style: in the one
   * effect run the dodecahedron collapses, the icosahedron returns and the
   * spin starts, with no target where both solids show.
   */
  lemma ShiftToStreet(yaw: real)
    ensures DodecahedronTarget(S(StructuralShiftId)).scale == Uniform(1.2)
    ensures DodecahedronTarget(S(GraffitiStyleId)).scale == Zero
    ensures IcosahedronScale(S(GraffitiStyleId)) == 1.0
    ensures SpinTarget(S(GraffitiStyleId), yaw).Some?
  {
  }
}

=== FILE: core_geometry.dfy ===
/**
 * The polyhedral core of CoreGeometry.tsx: the decomposition of the base
 * icosahedron into independently placed triangular faces, and the targets
 * the section effect hands to the tween engine for the dodecahedron, every
 * face, the icosahedron group and the main group, together with the
 * per-section material, wireframe and decal choices and the hover ids.
 */
module CoreGeometry {
  import opened Options
  import opened Sections
  import Decimal

  /** `Math.PI`, as the double it denotes. */
  const Pi: real := 3.141592653589793

  datatype Vec3 = Vec3(x: real, y: real, z: real) {
    function Plus(o: Vec3): Vec3 { Vec3(x + o.x, y + o.y, z + o.z) }
    function Minus(o: Vec3): Vec3 { Vec3(x - o.x, y - o.y, z - o.z) }
    function Scale(k: real): Vec3 { Vec3(x * k, y * k, z * k) }
  }

  const Zero: Vec3 := Vec3(0.0, 0.0, 0.0)

  /** A uniform scale target (the same factor on x, y and z). */
  function Uniform(k: real): Vec3 { Vec3(k, k, k) }

  /**
   * One face: its three vertices relative to its centroid, and the centroid,
   * which is also the face's rest position.
   */
  datatype Face = Face(a: Vec3, b: Vec3, c: Vec3, center: Vec3)

  /** The face built from one vertex triple. */
  function MakeFace(v1: Vec3, v2: Vec3, v3: Vec3): (f: Face)
    ensures f.center.Scale(3.0) == v1.Plus(v2).Plus(v3)
    ensures f.a.Plus(f.b).Plus(f.c) == Zero
    ensures f.a.Plus(f.center) == v1 && f.b.Plus(f.center) == v2 && f.c.Plus(f.center) == v3
  {
    var center := v1.Plus(v2).Plus(v3).Scale(1.0 / 3.0);
    Face(v1.Minus(center), v2.Minus(center), v3.Minus(center), center)
  }

  /** Face `k` of a decomposition is made of vertices 3k, 3k+1 and 3k+2. */
  predicate FaceOf(positions: seq<Vec3>, k: nat, f: Face)
    requires 3 * k + 2 < |positions|
  {
    f == MakeFace(positions[3 * k], positions[3 * k + 1], positions[3 * k + 2])
  }

  /**
   * The decomposition loop: one face per consecutive triple of the
   * (non-indexed) position attribute.
   */
  method Decompose(positions: seq<Vec3>) returns (faces: seq<Face>)
    requires |positions| % 3 == 0
    ensures |faces| == |positions| / 3
    ensures forall k :: 0 <= k < |faces| ==> FaceOf(positions, k, faces[k])
    ensures forall k :: 0 <= k < |faces| ==>
              faces[k].a.Plus(faces[k].center) == positions[3 * k]
              && faces[k].b.Plus(faces[k].center) == positions[3 * k + 1]
              && faces[k].c.Plus(faces[k].center) == positions[3 * k + 2]
  {
    faces := [];
    var i := 0;
    while i < |positions|
      invariant 0 <= i <= |positions| && i % 3 == 0
      invariant |faces| == i / 3
      invariant forall k :: 0 <= k < |faces| ==> FaceOf(positions, k, faces[k])
    {
      var f := MakeFace(positions[i], positions[i + 1], positions[i + 2]);
      faces := faces + [f];
      i := i + 3;
    }
  }

  /** The explosion factor: doubled for Deconstruction or a manual explode. */
  function Multiplier(sec: Section, exploded: bool): (m: real)
    ensures m == 2.0 || m == 1.0
    ensures m == 2.0 <==> IsDecon(sec) || exploded
  {
    if IsDecon(sec) || exploded then 2.0 else 1.0
  }

  /** The position a face is tweened to: its centroid times the multiplier. */
  function FacePositionTarget(f: Face, sec: Section, exploded: bool): (p: Vec3)
    ensures !IsDecon(sec) && !exploded ==> p == f.center
    ensures IsDecon(sec) || exploded ==> p.Minus(f.center) == f.center
  {
    f.center.Scale(Multiplier(sec, exploded))
  }

  /** A rotation target on x and y only: z is never part of the tween. */
  datatype TiltTarget = TiltTarget(x: real, y: real)

  /**
   * The face rotation target. `rollX` and `rollY` stand for the two
   * `Math.random()` draws, which happen only in Deconstruction.
   */
  function FaceRotationTarget(sec: Section, rollX: real, rollY: real): (t: TiltTarget)
    requires 0.0 <= rollX < 1.0 && 0.0 <= rollY < 1.0
    ensures IsDecon(sec) ==> 0.0 <= t.x < Pi && 0.0 <= t.y < Pi
    ensures IsDecon(sec) ==> t == TiltTarget(rollX * Pi, rollY * Pi)
    ensures !IsDecon(sec) ==> t == TiltTarget(0.0, 0.0)
  {
    TiltTarget(if IsDecon(sec) then rollX * Pi else 0.0,
               if IsDecon(sec) then rollY * Pi else 0.0)
  }

  /** Target of the companion dodecahedron: a scale and a y rotation. */
  datatype BodyTarget = BodyTarget(scale: Vec3, rotationY: real)

  function DodecahedronTarget(sec: Section): (t: BodyTarget)
    ensures IsShift(sec) ==> t == BodyTarget(Uniform(1.2), Pi)
    ensures !IsShift(sec) ==> t == BodyTarget(Zero, 0.0)
  {
    BodyTarget(Uniform(if IsShift(sec) then 1.2 else 0.0),
               if IsShift(sec) then Pi else 0.0)
  }

  /**
   * The icosahedron group's uniform scale: hidden for Structural Shift,
   * emphasised for Design & Color, tested in that order.
   */
  function IcosahedronScale(sec: Section): (k: real)
    ensures k == 0.0 <==> IsShift(sec)
    ensures k == 1.1 <==> IsDesign(sec)
    ensures k == 1.0 <==> !IsShift(sec) && !IsDesign(sec)
  {
    if IsShift(sec) then 0.0 else if IsDesign(sec) then 1.1 else 1.0
  }

  /**
   * The extra spin of the main group: 4π on top of its current yaw, issued
   * only for Graffiti & Style.
   */
  function SpinTarget(sec: Section, currentY: real): (t: Option<real>)
    ensures t.Some? <==> IsStreet(sec)
    ensures t.Some? ==> t.value - currentY == 4.0 * Pi
  {
    if IsStreet(sec) then Some(currentY + Pi * 4.0) else None
  }

  /** Everything one run of the section effect asks the tween engine for. */
  datatype Targets = Targets(
    body: BodyTarget,
    positions: seq<Vec3>,
    tilts: seq<TiltTarget>,
    icosahedron: Vec3,
    spin: Option<real>)

  predicate ValidRolls(rolls: seq<(real, real)>) {
    forall k :: 0 <= k < |rolls| ==> 0.0 <= rolls[k].0 < 1.0 && 0.0 <= rolls[k].1 < 1.0
  }

  /**
   * The section effect, run whenever the section or `exploded` changes.
   * `rolls[k]` are the random draws for face k; `yaw` is the main group's
   * current y rotation.
   */
  function Retarget(faces: seq<Face>, sec: Section, exploded: bool,
                    rolls: seq<(real, real)>, yaw: real): (t: Targets)
    requires |rolls| == |faces| && ValidRolls(rolls)
    ensures |t.positions| == |faces| && |t.tilts| == |faces|
    ensures !IsDecon(sec) && !exploded ==>
              forall k :: 0 <= k < |faces| ==> t.positions[k] == faces[k].center
    ensures IsDecon(sec) || exploded ==>
              forall k :: 0 <= k < |faces| ==> t.positions[k] == faces[k].center.Scale(2.0)
    ensures !IsDecon(sec) ==> forall k :: 0 <= k < |faces| ==> t.tilts[k] == TiltTarget(0.0, 0.0)
    ensures IsDecon(sec) ==> forall k :: 0 <= k < |faces| ==>
              0.0 <= t.tilts[k].x < Pi && 0.0 <= t.tilts[k].y < Pi
    ensures IsDecon(sec) ==> forall k :: 0 <= k < |faces| ==>
              t.tilts[k] == TiltTarget(rolls[k].0 * Pi, rolls[k].1 * Pi)
    ensures forall k :: 0 <= k < |faces| ==>
              t.positions[k] == FacePositionTarget(faces[k], sec, exploded)
    ensures forall k :: 0 <= k < |faces| ==>
              t.tilts[k] == FaceRotationTarget(sec, rolls[k].0, rolls[k].1)
    ensures t.body == DodecahedronTarget(sec)
    ensures t.icosahedron == Uniform(IcosahedronScale(sec))
    ensures t.spin == SpinTarget(sec, yaw)
  {
    Targets(
      DodecahedronTarget(sec),
      seq(|faces|, k requires 0 <= k < |faces| => FacePositionTarget(faces[k], sec, exploded)),
      seq(|faces|, k requires 0 <= k < |faces| => FaceRotationTarget(sec, rolls[k].0, rolls[k].1)),
      Uniform(IcosahedronScale(sec)),
      SpinTarget(sec, yaw))
  }

  /** The surface material of every face. */
  datatype Surface = Glass | Iridescent

  function FaceSurface(sec: Section): (m: Surface)
    ensures m == Iridescent <==> IsDesign(sec)
  {
    if IsDesign(sec) then Iridescent else Glass
  }

  /** The edge overlay of every face: a colour and an opacity. */
  datatype Wire = Wire(color: string, opacity: real)

  function Wireframe(sec: Section): (w: Wire)
    ensures w.color == "#ff00ff" <==> IsStreet(sec)
    ensures w.color == "#ffffff" <==> !IsStreet(sec)
    ensures w.opacity == 1.0 <==> IsShift(sec)
    ensures w.opacity == 0.4 <==> !IsShift(sec)
  {
    Wire(if IsStreet(sec) then "#ff00ff" else "#ffffff",
         if IsShift(sec) then 1.0 else 0.4)
  }

  /** The graffiti decal on face `i`: Graffiti & Style, every third face. */
  predicate HasDecal(sec: Section, i: nat) {
    IsStreet(sec) && i % 3 == 0
  }

  /** How many of the first `n` faces carry a decal. */
  function DecalCount(sec: Section, n: nat): (r: nat)
    ensures IsStreet(sec) ==> r == (n + 2) / 3
    ensures !IsStreet(sec) ==> r == 0
    decreases n
  {
    if n == 0 then 0
    else DecalCount(sec, n - 1) + (if HasDecal(sec, n - 1) then 1 else 0)
  }

  /** The id a face reports on pointer-over. */
  function FaceHoverId(i: nat): (h: string)
    ensures |h| > 5 && h[..5] == "face_"
    ensures Decimal.Canonical(h[5..])
  {
    "face_" + Decimal.NatToString(i)
  }

  /** The hover report of face `i`: its id on pointer-over, null on pointer-out. */
  function FaceHover(i: nat, over: bool): (part: Option<string>)
    ensures over ==> part == Some(FaceHoverId(i))
    ensures !over ==> part == None
  {
    if over then Some(FaceHoverId(i)) else None
  }

  /** Reads a face index back from a hover id; None for any other string. */
  function ParseFaceHoverId(h: string): (r: Option<nat>)
    ensures r.Some? <==> |h| > 5 && h[..5] == "face_" && Decimal.Canonical(h[5..])
  {
    if |h| > 5 && h[..5] == "face_" && Decimal.Canonical(h[5..])
    then Some(Decimal.ParseDigits(h[5..]))
    else None
  }

  /** Hover ids and face indices correspond one to one. */
  lemma FaceHoverIdRoundTrip(i: nat, h: string)
    ensures ParseFaceHoverId(FaceHoverId(i)) == Some(i)
    ensures ParseFaceHoverId(h) == Some(i) ==> h == FaceHoverId(i)
  {
    var id := FaceHoverId(i);
    assert id[5..] == Decimal.NatToString(i);
    Decimal.ParseNatToString(i);
    if ParseFaceHoverId(h) == Some(i) {
      Decimal.NatToStringParse(h[5..]);
      assert h == h[..5] + h[5..];
    }
  }

  /** Two faces never report the same hover id. */
  lemma FaceHoverIdInjective(i: nat, j: nat)
    ensures FaceHoverId(i) == FaceHoverId(j) ==> i == j
  {
    FaceHoverIdRoundTrip(i, "");
    FaceHoverIdRoundTrip(j, "");
  }

  /** Exactly one of the two solids is visible, whatever the section. */
  lemma OneSolidVisible(sec: Section)
    ensures (DodecahedronTarget(sec).scale != Zero) != (IcosahedronScale(sec) != 0.0)
  {
  }

  /**
   * Outside Deconstruction the section effect is deterministic: running it
   * twice with the same inputs requests the same targets, whatever the
   * random draws.
   */
  lemma RetargetDeterministic(faces: seq<Face>, sec: Section, exploded: bool,
                              rolls1: seq<(real, real)>, rolls2: seq<(real, real)>, yaw: real)
    requires |rolls1| == |faces| && ValidRolls(rolls1)
    requires |rolls2| == |faces| && ValidRolls(rolls2)
    requires !IsDecon(sec)
    ensures Retarget(faces, sec, exploded, rolls1, yaw) == Retarget(faces, sec, exploded, rolls2, yaw)
  {
    var t1 := Retarget(faces, sec, exploded, rolls1, yaw);
    var t2 := Retarget(faces, sec, exploded, rolls2, yaw);
    assert t1.tilts == t2.tilts;
  }

  /** With the multiplier at 1 every face is sent back to its rest place. */
  lemma CollapseRestores(faces: seq<Face>, sec: Section, rolls: seq<(real, real)>, yaw: real)
    requires |rolls| == |faces| && ValidRolls(rolls)
    requires !IsDecon(sec)
    ensures forall k :: 0 <= k < |faces| ==>
              Retarget(faces, sec, false, rolls, yaw).positions[k] == faces[k].center
  {
  }
}

=== FILE: decimal.dfy ===
/**
 * Decimal rendering of a face index, as a template literal `${i}` renders a
 * non-negative integer, together with its inverse. The hover id of a face is
 * built from it, and the inverse shows that the id names exactly one face.
 */
module Decimal {

  predicate IsDigit(c: char) { '0' <= c <= '9' }

  function DigitChar(d: nat): (c: char)
    requires d < 10
    ensures IsDigit(c)
    ensures DigitValue(c) == d
  {
    (('0' as int) + d) as char
  }

  function DigitValue(c: char): nat
    requires IsDigit(c)
  {
    (c as int) - ('0' as int)
  }

  predicate AllDigits(s: string) {
    forall k :: 0 <= k < |s| ==> IsDigit(s[k])
  }

  /** The shortest decimal numeral: non-empty, no leading zero unless "0". */
  predicate Canonical(s: string) {
    |s| > 0 && AllDigits(s) && (s[0] == '0' ==> |s| == 1)
  }

  function NatToString(n: nat): (s: string)
    ensures Canonical(s)
    ensures n < 10 <==> |s| == 1
    decreases n
  {
    if n < 10 then [DigitChar(n)]
    else NatToString(n / 10) + [DigitChar(n % 10)]
  }

  /** The value of a string of digits, most significant digit first. */
  function ParseDigits(s: string): nat
    requires AllDigits(s)
    decreases |s|
  {
    if |s| == 0 then 0
    else ParseDigits(s[..|s| - 1]) * 10 + DigitValue(s[|s| - 1])
  }

  /** Parsing undoes rendering. */
  lemma {:induction false} ParseNatToString(n: nat)
    ensures ParseDigits(NatToString(n)) == n
    decreases n
  {
    var s := NatToString(n);
    if n < 10 {
    } else {
      var p := NatToString(n / 10);
      assert s[..|s| - 1] == p;
      ParseNatToString(n / 10);
    }
  }

  /** Rendering undoes parsing on canonical numerals. */
  lemma {:induction false} NatToStringParse(s: string)
    requires Canonical(s)
    ensures NatToString(ParseDigits(s)) == s
    decreases |s|
  {
    var c := s[|s| - 1];
    DigitRoundTrip(c);
    if |s| == 1 {
      assert s[..0] == [];
      assert s == [c];
    } else {
      var p := s[..|s| - 1];
      assert p[0] == s[0];
      NatToStringParse(p);
      ParseDigits10(s);
      var n := ParseDigits(s);
      LastDigit(ParseDigits(p), DigitValue(c));
      assert NatToString(n) == NatToString(n / 10) + [DigitChar(n % 10)];
      assert s == p + [c];
    }
  }

  lemma DigitRoundTrip(c: char)
    requires IsDigit(c)
    ensures DigitChar(DigitValue(c)) == c
  {
  }

  /** Splitting off the last decimal digit. */
  lemma LastDigit(q: nat, d: nat)
    requires d < 10
    ensures (q * 10 + d) / 10 == q && (q * 10 + d) % 10 == d
  {
  }

  /** A canonical numeral of two or more digits denotes at least 10. */
  lemma {:induction false} ParseDigits10(s: string)
    requires Canonical(s)
    ensures |s| >= 2 ==> ParseDigits(s) >= 10
    ensures |s| == 1 ==> ParseDigits(s) < 10
    decreases |s|
  {
    if |s| >= 2 {
      var p := s[..|s| - 1];
      assert p[0] == s[0];
      ParseDigits10(p);
      if |p| == 1 {
        assert p[..0] == [];
        assert ParseDigits(p) == DigitValue(s[0]) >= 1;
      }
    } else {
      assert s[..0] == [];
    }
  }

  /** Distinct indices render to distinct numerals. */
  lemma NatToStringInjective(m: nat, n: nat)
    ensures NatToString(m) == NatToString(n) ==> m == n
  {
    ParseNatToString(m);
    ParseNatToString(n);
  }
}

=== FILE: effects.dfy ===
/**
 * When the page's effects run again. React re-runs an effect after a render
 * only when one of the values in its dependency list has changed, so a state
 * change re-issues only the tweens of the effects that watch what changed.
 * The core's effect watches the section and `exploded`, the skateboard's
 * kickflip and the background watch only the section.
 */
module Effects {
  import opened Options
  import opened Sections
  import opened App
  import opened CoreGeometry
  import opened Skateboard

  /** The section-dependent effects of the page and of the skateboard. */
  datatype Effect =
    | CoreEffect        // the core's retargeting
    | BackgroundEffect  // App's background colour
    | SliceEffect       // the slice materials
    | WheelEffect       // the wheel fly-out
    | GlowEffect        // the wheel glow
    | KickflipEffect    // the skateboard's kickflip

  /** The state fields an effect's dependency list names. */
  datatype Dep = OnSection | OnExploded

  /**
   * The dependency list of each effect. The core also lists its face meshes,
   * which are memoised once at mount and so never change.
   */
  function Deps(e: Effect): (ds: set<Dep>)
    ensures OnSection in ds
    ensures OnExploded in ds <==> e == CoreEffect || e == WheelEffect
  {
    match e
    case CoreEffect => {OnSection, OnExploded}
    case WheelEffect => {OnSection, OnExploded}
    case _ => {OnSection}
  }

  /** Whether the field a dependency names differs between two states. */
  predicate Changed(d: Dep, p: AppState, q: AppState) {
    match d
    case OnSection => p.activeSection != q.activeSection
    case OnExploded => p.exploded != q.exploded
  }

  /** Whether effect `e` runs again when the state goes from `p` to `q`. */
  function Reruns(e: Effect, p: AppState, q: AppState): (r: bool)
    ensures r ==> p != q
    ensures p.activeSection != q.activeSection ==> r
    ensures r && p.activeSection == q.activeSection ==>
              (e == CoreEffect || e == WheelEffect) && p.exploded != q.exploded
  {
    (OnSection in Deps(e) && Changed(OnSection, p, q))
    || (OnExploded in Deps(e) && Changed(OnExploded, p, q))
  }

  /** The targets the core's effect requests on a state change, if it runs. */
  function CoreRequest(p: AppState, q: AppState, faces: seq<Face>,
                       rolls: seq<(real, real)>, yaw: real): (t: Option<Targets>)
    requires |rolls| == |faces| && ValidRolls(rolls)
    ensures t.Some? <==> p.activeSection != q.activeSection || p.exploded != q.exploded
    ensures t.Some? ==> t.value == Retarget(faces, q.activeSection, q.exploded, rolls, yaw)
  {
    if Reruns(CoreEffect, p, q) then Some(Retarget(faces, q.activeSection, q.exploded, rolls, yaw))
    else None
  }

  /** The kickflip the skateboard requests on a state change, if any. */
  function KickflipRequest(p: AppState, q: AppState, rot: Vec3): (t: Option<Vec3>)
    ensures t.Some? <==> p.activeSection != q.activeSection && IsStreet(q.activeSection)
    ensures t.Some? ==> t == Kickflip(q.activeSection, rot)
  {
    if Reruns(KickflipEffect, p, q) then Kickflip(q.activeSection, rot) else None
  }

  /**
   * Exploding a collapsed core in Graffiti & Style keeps the section, so the
   * core's effect runs again and spins the group by another 4π, while the
   * kickflip, which watches only the section, is not repeated.
   */
  lemma ExplodeInStreetRespins(p: Page, faces: seq<Face>, rolls: seq<(real, real)>,
                               yaw: real, rot: Vec3)
    requires |rolls| == |faces| && ValidRolls(rolls)
    requires IsStreet(p.state.activeSection) && !p.state.exploded
    ensures var q := Step(p, Explode).state;
            && q.activeSection == p.state.activeSection
            && CoreRequest(p.state, q, faces, rolls, yaw).Some?
            && CoreRequest(p.state, q, faces, rolls, yaw).value.spin == Some(yaw + 4.0 * Pi)
            && KickflipRequest(p.state, q, rot) == None
            && !Reruns(BackgroundEffect, p.state, q)
  {
  }

  /**
   * Choosing a section again re-runs the core's effect exactly when it
   * changes `exploded`, and the section-only effects never.
   */
  lemma ReselectReruns(p: AppState, id: string, e: Effect)
    requires p.activeSection == S(id)
    ensures var q := SetActiveSection(p, id);
            && (Reruns(e, p, q) <==> (e == CoreEffect || e == WheelEffect) && p.exploded != (id == DeconstructionId))
  {
  }

  /**
   * In a consistent state, choosing Deconstruction again re-runs nothing, so
   * the faces keep the tilts of their earlier draws.
   */
  lemma ReselectDeconKeepsTilts(p: AppState, faces: seq<Face>,
                                rolls: seq<(real, real)>, yaw: real)
    requires |rolls| == |faces| && ValidRolls(rolls)
    requires Consistent(p) && IsDecon(p.activeSection)
    ensures CoreRequest(p, SetActiveSection(p, DeconstructionId), faces, rolls, yaw) == None
  {
  }

  /** Hover, orbit and menu events leave both watched fields alone. */
  lemma QuietEventsRerunNothing(p: Page, ev: Event, e: Effect)
    requires !ev.Explode? && !ev.Select?
    ensures !Reruns(e, p.state, Step(p, ev).state)
  {
  }
}

=== FILE: menu.dfy ===
/**
 * The navigation catalogue of types.ts: a fixed table of four sections, and
 * the `find` lookup the overlay performs on it with the active section.
 */
module Menu {
  import opened Options
  import opened Sections

  datatype MenuItem = MenuItem(id: string, caption: string, description: string)

  const Description01: string := "Reconfiguring vertex coordinates. Transitioning from Icosahedron to Dodecahedron architecture."
  const Description02: string := "Core disassembly protocol. Decoupling polygon faces to visualize internal logic flow."
  const Description03: string := "Material update. Iridescent metallic shift complete. Focus optimized for charcoal spectrum."
  const Description04: string := "Heuristic override. Digital tagging applied to central core. High-energy rotation enabled."

  const MenuItems: seq<MenuItem> := [
    MenuItem("01", "STRUCTURAL SHIFT",
      Description01),
    MenuItem("02", "DECONSTRUCTION",
      Description02),
    MenuItem("03", "DESIGN & COLOR",
      Description03),
    MenuItem("04", "GRAFFITI & STYLE",
      Description04)
  ]

  /** The ids of `items`, in order. */
  function Ids(items: seq<MenuItem>): (ids: seq<string>)
    ensures |ids| == |items|
    ensures forall k :: 0 <= k < |items| ==> ids[k] == items[k].id
  {
    seq(|items|, k requires 0 <= k < |items| => items[k].id)
  }

  predicate DistinctIds(items: seq<MenuItem>) {
    forall j, k :: 0 <= j < k < |items| ==> items[j].id != items[k].id
  }

  /**
   * `items.find(m => m.id === sec)`: the first item whose id equals the
   * section; a null section equals no id.
   */
  function Find(items: seq<MenuItem>, sec: Section): (r: Option<MenuItem>)
    ensures r.Some? <==> exists k :: 0 <= k < |items| && S(items[k].id) == sec
    ensures r.Some? ==> exists k :: 0 <= k < |items| && items[k] == r.value
                          && S(r.value.id) == sec
                          && forall j :: 0 <= j < k ==> S(items[j].id) != sec
  {
    FindFrom(items, sec, 0)
  }

  /** The scan of `find` from index `from` on. */
  function FindFrom(items: seq<MenuItem>, sec: Section, from: nat): (r: Option<MenuItem>)
    requires from <= |items|
    ensures r.Some? <==> exists k :: from <= k < |items| && S(items[k].id) == sec
    ensures r.Some? ==> exists k :: from <= k < |items| && items[k] == r.value
                          && S(r.value.id) == sec
                          && forall j :: from <= j < k ==> S(items[j].id) != sec
    decreases |items| - from
  {
    if from == |items| then None
    else if S(items[from].id) == sec then Some(items[from])
    else FindFrom(items, sec, from + 1)
  }

  /** The catalogue holds the four sections in order, with distinct ids. */
  lemma CatalogueShape()
    ensures |MenuItems| == 4
    ensures Ids(MenuItems) == [StructuralShiftId, DeconstructionId, DesignColorId, GraffitiStyleId]
    ensures DistinctIds(MenuItems)
    ensures forall k :: 0 <= k < |MenuItems| ==> MenuItems[k].caption != ""
  {
  }

  /** With distinct ids a lookup by id finds the one item carrying it. */
  lemma {:induction false} FindUnique(items: seq<MenuItem>, k: nat)
    requires DistinctIds(items)
    requires k < |items|
    ensures Find(items, S(items[k].id)) == Some(items[k])
  {
    var r := Find(items, S(items[k].id));
    var j :| 0 <= j < |items| && items[j] == r.value && S(r.value.id) == S(items[k].id)
             && forall i :: 0 <= i < j ==> S(items[i].id) != S(items[k].id);
    assert j == k;
  }

  /** Each catalogue section carries the caption (the `label` field of types.ts) of its theme. */
  lemma CatalogueLabels()
    ensures Find(MenuItems, S(StructuralShiftId)) == Some(MenuItems[0])
            && MenuItems[0].caption == "STRUCTURAL SHIFT"
    ensures Find(MenuItems, S(DeconstructionId)) == Some(MenuItems[1])
            && MenuItems[1].caption == "DECONSTRUCTION"
    ensures Find(MenuItems, S(DesignColorId)) == Some(MenuItems[2])
            && MenuItems[2].caption == "DESIGN & COLOR"
    ensures Find(MenuItems, S(GraffitiStyleId)) == Some(MenuItems[3])
            && MenuItems[3].caption == "GRAFFITI & STYLE"
  {
    FindCatalogue(S(StructuralShiftId));
    FindCatalogue(S(DeconstructionId));
    FindCatalogue(S(DesignColorId));
    FindCatalogue(S(GraffitiStyleId));
  }

  /** The lookup on the catalogue, case by case. */
  lemma FindCatalogue(sec: Section)
    ensures IsShift(sec) ==> Find(MenuItems, sec) == Some(MenuItems[0])
    ensures IsDecon(sec) ==> Find(MenuItems, sec) == Some(MenuItems[1])
    ensures IsDesign(sec) ==> Find(MenuItems, sec) == Some(MenuItems[2])
    ensures IsStreet(sec) ==> Find(MenuItems, sec) == Some(MenuItems[3])
    ensures ModeOf(sec) == Idle ==> Find(MenuItems, sec) == None
  {
    CatalogueShape();
    if ModeOf(sec) != Idle {
      FindUnique(MenuItems, 0);
      FindUnique(MenuItems, 1);
      FindUnique(MenuItems, 2);
      FindUnique(MenuItems, 3);
    }
  }

  /** The catalogue is exactly the four flagged sections: lookup succeeds iff a flag holds. */
  lemma CatalogueCoversModes(sec: Section)
    ensures Find(MenuItems, sec).Some? <==> ModeOf(sec) != Idle
  {
    FindCatalogue(sec);
  }
}

=== FILE: options.dfy ===
/** A value that may be absent: the model of TypeScript's `T | null`. */
module Options {

  datatype Option<+T> = None | Some(value: T)
}

=== FILE: overlay.dfy ===
/**
 * The string and boolean choices of the 2D overlay in Overlay.tsx: title
 * colour, banner text and visibility, status dot and heading, the explode
 * button's label and style, and the description line.
 */
module Overlay {
  import opened Options
  import opened Sections
  import opened Menu
  import opened App

  /** The colour class of the title word and the status heading. */
  function SectionColor(sec: Section): (c: string)
    ensures IsShift(sec) <==> c == "text-cyan-400"
    ensures IsDecon(sec) <==> c == "text-black"
    ensures IsStreet(sec) <==> c == "text-pink-500"
    ensures c == "text-orange-400" <==> ModeOf(sec) == Design || ModeOf(sec) == Idle
  {
    if IsShift(sec) then "text-cyan-400"
    else if IsDecon(sec) then "text-black"
    else if IsDesign(sec) then "text-orange-400"
    else if IsStreet(sec) then "text-pink-500"
    else "text-orange-400"
  }

  /** The item the overlay looks up for the active section. */
  function CurrentItem(sec: Section): Option<MenuItem> {
    Find(MenuItems, sec)
  }

  /** The banner: a fixed message in street mode, else the item's caption. */
  function BannerText(sec: Section): (t: string)
    ensures IsStreet(sec) ==> t == "SYSTEM ONLINE"
    ensures !IsStreet(sec) && CurrentItem(sec).Some? ==> t == CurrentItem(sec).value.caption
    ensures !IsStreet(sec) && CurrentItem(sec).None? ==> t == "REASSEMBLED"
  {
    if IsStreet(sec) then "SYSTEM ONLINE"
    else match CurrentItem(sec)
      case Some(item) => item.caption
      case None => "REASSEMBLED"
  }

  /** The banner is shown while a section is set (truthy) or the core is exploded. */
  predicate BannerVisible(s: AppState) {
    Truthy(s.activeSection) || s.exploded
  }

  /** The overlay's text colour: black on the yellow Deconstruction page. */
  function TextColor(sec: Section): (c: string)
    ensures c == "text-black" <==> IsDecon(sec)
    ensures c == "text-white" <==> !IsDecon(sec)
  {
    if IsDecon(sec) then "text-black" else "text-white"
  }

  /** The black overlay text and the black title word both mean Deconstruction. */
  lemma TextColorMatchesTitle(sec: Section)
    ensures TextColor(sec) == "text-black" <==> SectionColor(sec) == "text-black"
    ensures TextColor(sec) == "text-white" <==> SectionColor(sec) != "text-black"
  {
  }

  /** The subtitle under the title. */
  function Subtitle(sec: Section): (t: string)
    ensures t == "DECRYPTION_IN_PROGRESS" <==> IsStreet(sec)
    ensures !IsStreet(sec) ==> t == "Core_V4.2 // Paris Edition"
  {
    if IsStreet(sec) then "DECRYPTION_IN_PROGRESS" else "Core_V4.2 // Paris Edition"
  }

  /** The status dot's colour class. */
  function StatusDot(sec: Section): (c: string)
    ensures c == "bg-green-400" <==> Truthy(sec)
    ensures !Truthy(sec) ==> c == "bg-orange-400"
    ensures c != "bg-black"
  {
    if Truthy(sec) then "bg-green-400"
    else if IsDecon(sec) then "bg-black"
    else "bg-orange-400"
  }

  /** The status heading: the node id when a section is set. */
  function StatusHeading(sec: Section): (h: string)
    ensures Truthy(sec) ==> h == "Node_v" + sec.id
    ensures !Truthy(sec) ==> h == "Awaiting_Input"
  {
    if Truthy(sec) then "Node_v" + sec.id else "Awaiting_Input"
  }

  /** The description line: the item's description, or the default text. */
  function Description(sec: Section): (d: string)
    ensures CurrentItem(sec).Some? ==> d == CurrentItem(sec).value.description
    ensures CurrentItem(sec).None? ==> d == DefaultDescription
  {
    match CurrentItem(sec)
    case Some(item) => if item.description != "" then item.description else DefaultDescription
    case None => DefaultDescription
  }

  const DefaultDescription: string :=
    "A generative 3D thought form mapped through geometric complexity. Interact with the core to observe structural and material transitions."

  function ExplodeButtonLabel(exploded: bool): (t: string)
    ensures t == "Collapse Core" <==> exploded
    ensures t == "Explode View" <==> !exploded
  {
    if exploded then "Collapse Core" else "Explode View"
  }

  /** The three styles of the explode button. */
  datatype ButtonStyle = PinkStyle | DeconStyle | PlainStyle

  function ExplodeButtonStyle(s: AppState): (b: ButtonStyle)
    ensures b == PinkStyle <==> s.exploded
    ensures b == DeconStyle <==> !s.exploded && IsDecon(s.activeSection)
  {
    if s.exploded then PinkStyle
    else if IsDecon(s.activeSection) then DeconStyle
    else PlainStyle
  }

  /**
   * The banner hides only when the core is collapsed and no section is set:
   * it is hidden at start, shown by exploding or by choosing a catalogue
   * section, and hidden again by collapsing.
   */
  lemma BannerVisibility(s: AppState, id: string)
    ensures !BannerVisible(s) <==> !s.exploded && (s.activeSection == NoSection || s.activeSection == S(""))
    ensures !BannerVisible(Initial())
    ensures id != "" ==> BannerVisible(SetActiveSection(s, id))
    ensures !s.exploded ==> BannerVisible(ToggleExplode(s))
    ensures s.exploded ==> !BannerVisible(ToggleExplode(s))
  {
  }

  /** The banner names the section, except in street mode and for unknown ids. */
  lemma BannerNamesSection(sec: Section)
    ensures BannerText(sec) == "REASSEMBLED" <==> ModeOf(sec) == Idle
    ensures IsShift(sec) ==> BannerText(sec) == "STRUCTURAL SHIFT"
    ensures IsDecon(sec) ==> BannerText(sec) == "DECONSTRUCTION"
    ensures IsDesign(sec) ==> BannerText(sec) == "DESIGN & COLOR"
  {
    FindCatalogue(sec);
  }
}

=== FILE: sections.dfy ===
/**
 * The active section of the page. The application stores it as
 * `string | null`; every component tests it against the literal ids
 * '01' .. '04', so any other string behaves like "no section" wherever the
 * code only compares ids, and like a selected section wherever the code only
 * tests JavaScript truthiness.
 */
module Sections {

  datatype Section = NoSection | S(id: string)

  const StructuralShiftId: string := "01"
  const DeconstructionId: string := "02"
  const DesignColorId: string := "03"
  const GraffitiStyleId: string := "04"

  /** The four flags each component derives by `activeSection === '0k'`. */
  predicate IsShift(sec: Section) { sec == S(StructuralShiftId) }
  predicate IsDecon(sec: Section) { sec == S(DeconstructionId) }
  predicate IsDesign(sec: Section) { sec == S(DesignColorId) }
  predicate IsStreet(sec: Section) { sec == S(GraffitiStyleId) }

  /** JavaScript truthiness of `activeSection`: null and '' are falsy. */
  predicate Truthy(sec: Section) { sec.S? && sec.id != "" }

  /** The visual mode a section selects; ids outside the catalogue are Idle. */
  datatype Mode = Idle | Shift | Decon | Design | Street

  function ModeOf(sec: Section): (m: Mode)
    ensures m == Shift <==> IsShift(sec)
    ensures m == Decon <==> IsDecon(sec)
    ensures m == Design <==> IsDesign(sec)
    ensures m == Street <==> IsStreet(sec)
  {
    if IsShift(sec) then Shift
    else if IsDecon(sec) then Decon
    else if IsDesign(sec) then Design
    else if IsStreet(sec) then Street
    else Idle
  }

  /** At most one of the four section flags holds, whatever the section. */
  lemma FlagsExclusive(sec: Section)
    ensures !(IsShift(sec) && IsDecon(sec))
    ensures !(IsShift(sec) && IsDesign(sec))
    ensures !(IsShift(sec) && IsStreet(sec))
    ensures !(IsDecon(sec) && IsDesign(sec))
    ensures !(IsDecon(sec) && IsStreet(sec))
    ensures !(IsDesign(sec) && IsStreet(sec))
  {
  }

  /** Every flagged section is truthy, so a truthiness test always sees it. */
  lemma FlaggedIsTruthy(sec: Section)
    ensures ModeOf(sec) != Idle ==> Truthy(sec)
  {
  }
}

=== FILE: skateboard.dfy ===
/**
 * The skateboard component of BaguetteSkateboard.tsx: three stacked slices
 * and four wheels, with the targets each section effect requests for them,
 * the kickflip of Graffiti & Style and the per-frame wheel spin and bob. The
 * page itself does not mount this component; it takes the same inputs as
 * the core and is modelled on its own.
 */
module Skateboard {
  import opened Options
  import opened Sections
  import opened CoreGeometry

  const SliceCount: nat := 3
  const WheelCount: nat := 4

  const BreadColor: string := "#E6A15C"
  const CarbonColor: string := "#1A1A1A"
  const WheelColorDefault: string := "#FF3366"
  const WheelColorFlavor: string := "#00FFFF"

  /** Distance of a flown-out wheel from the board on each axis. */
  const ExplosionDist: real := 1.5
  /** Gap between slices in Deconstruction. */
  const SliceDist: real := 0.4
  /** Gap between slices otherwise. */
  const RestSliceDist: real := 0.23

  /** Target height of slice `i`, centred on the middle slice. */
  function SliceY(sec: Section, i: nat): (y: real)
    requires i < SliceCount
    ensures i == 1 ==> y == 0.0
    ensures IsDecon(sec) ==> y == (i as real - 1.0) * SliceDist
    ensures !IsDecon(sec) ==> y == (i as real - 1.0) * RestSliceDist
  {
    var gap := if IsDecon(sec) then SliceDist else RestSliceDist;
    ((i as int) - 1) as real * gap
  }

  /** The slices stay stacked in order, and Deconstruction only widens the gaps. */
  lemma SlicesOrdered(sec: Section, i: nat, j: nat)
    requires i < j < SliceCount
    ensures SliceY(sec, i) < SliceY(sec, j)
    ensures SliceY(S(DeconstructionId), j) - SliceY(S(DeconstructionId), i)
            > SliceY(NoSection, j) - SliceY(NoSection, i)
  {
  }

  /** Whether the wheels fly out: a manual explode or Deconstruction. */
  predicate WheelsOut(sec: Section, exploded: bool) {
    exploded || IsDecon(sec)
  }

  /** `d` when `v > 0`, otherwise `-d`: the sign test of the fly-out. */
  function AwayFromZero(v: real, d: real): real {
    if v > 0.0 then d else -d
  }

  /**
   * Target position of wheel `i`, whose current position is `cur`. Flying
   * out keeps each wheel on the side of each axis it currently occupies.
   */
  function WheelTarget(sec: Section, exploded: bool, i: nat, cur: Vec3): (t: Vec3)
    requires i < WheelCount
    ensures WheelsOut(sec, exploded) ==>
              (t.x == ExplosionDist <==> cur.x > 0.0) && (t.x == -ExplosionDist <==> cur.x <= 0.0)
              && (t.y == ExplosionDist <==> cur.y > 0.0) && (t.y == -ExplosionDist <==> cur.y <= 0.0)
              && t.z == 1.5
    ensures !WheelsOut(sec, exploded) ==>
              t.y == (if i < 2 then 0.4 else -0.4)
              && t.x == (if i % 2 == 0 then -1.5 else 1.5)
              && t.z == 0.6
  {
    var out := WheelsOut(sec, exploded);
    Vec3(if out then AwayFromZero(cur.x, ExplosionDist) else (if i % 2 == 0 then -1.5 else 1.5),
         if out then AwayFromZero(cur.y, ExplosionDist) else (if i < 2 then 0.4 else -0.4),
         if out then 1.5 else 0.6)
  }

  /**
   * Re-running the effect once the wheels have arrived requests the same
   * targets again: the fly-out target is a fixed point.
   */
  lemma WheelTargetIdempotent(sec: Section, exploded: bool, i: nat, cur: Vec3)
    requires i < WheelCount
    ensures var t := WheelTarget(sec, exploded, i, cur);
            WheelTarget(sec, exploded, i, t) == t
  {
  }

  /** The four wheels never share a target, flown out from rest or not. */
  lemma WheelTargetsDistinct(sec: Section, exploded: bool, i: nat, j: nat)
    requires i < j < WheelCount
    ensures !IsDecon(sec) ==> WheelTarget(sec, false, i, Zero) != WheelTarget(sec, false, j, Zero)
    ensures var rest := NoSection;
            var ri := WheelTarget(rest, false, i, Zero);
            var rj := WheelTarget(rest, false, j, Zero);
            WheelTarget(sec, true, i, ri) != WheelTarget(sec, true, j, rj)
  {
  }

  /** Flying out moves every settled wheel outward on y and z, never inward on x. */
  lemma FlyOutMovesOutward(sec: Section, i: nat)
    requires i < WheelCount
    ensures var rest := WheelTarget(NoSection, false, i, Zero);
            var out := WheelTarget(sec, true, i, rest);
            out.x == rest.x && out.z > rest.z
            && (if rest.y > 0.0 then out.y > rest.y else out.y < rest.y)
  {
  }

  /** The look of the slices: colour, metalness and roughness. */
  datatype SliceLook = SliceLook(color: string, metalness: real, roughness: real)

  function SliceMaterial(sec: Section): (m: SliceLook)
    ensures IsShift(sec) ==> m == SliceLook(CarbonColor, 0.9, 0.2)
    ensures !IsShift(sec) ==> m == SliceLook(BreadColor, 0.1, 0.7)
  {
    var isCarbon := IsShift(sec);
    SliceLook(if isCarbon then CarbonColor else BreadColor,
              if isCarbon then 0.9 else 0.1,
              if isCarbon then 0.2 else 0.7)
  }

  /** The look of the wheels: colour, emissive colour and emissive intensity. */
  datatype WheelLook = WheelLook(color: string, emissive: string, intensity: real)

  function WheelGlow(sec: Section): (w: WheelLook)
    ensures w.intensity > 0.0 <==> IsDesign(sec)
    ensures IsDesign(sec) ==> w == WheelLook(WheelColorFlavor, WheelColorFlavor, 2.0)
    ensures !IsDesign(sec) ==> w == WheelLook(WheelColorDefault, "#000000", 0.0)
  {
    var isFlavor := IsDesign(sec);
    WheelLook(if isFlavor then WheelColorFlavor else WheelColorDefault,
              if isFlavor then WheelColorFlavor else "#000000",
              if isFlavor then 2.0 else 0.0)
  }

  /**
   * The kickflip: a full turn added to the board's x and z rotation, issued
   * only for Graffiti & Style; y is not part of the tween and keeps `rot.y`.
   */
  function Kickflip(sec: Section, rot: Vec3): (t: Option<Vec3>)
    ensures t.Some? <==> IsStreet(sec)
    ensures t.Some? ==> t.value.Minus(rot) == Vec3(2.0 * Pi, 0.0, 2.0 * Pi)
  {
    if IsStreet(sec) then Some(Vec3(rot.x + Pi * 2.0, rot.y, rot.z + Pi * 2.0)) else None
  }

  /** Whether the wheels spin this frame. */
  predicate WheelsSpin(sec: Section, exploded: bool) {
    !exploded && !IsDecon(sec)
  }

  /** A wheel's x rotation after `frames` frames of the per-frame update. */
  function SpinFrames(sec: Section, exploded: bool, rotX: real, frames: nat): (r: real)
    ensures WheelsSpin(sec, exploded) ==> r == rotX + frames as real * 0.05
    ensures !WheelsSpin(sec, exploded) ==> r == rotX
    decreases frames
  {
    if frames == 0 then rotX
    else
      var before := SpinFrames(sec, exploded, rotX, frames - 1);
      if WheelsSpin(sec, exploded) then before + 0.05 else before
  }

  /**
   * The idle bob: the board's height is set from `wave`, standing for
   * `Math.sin(time * 2)`, only while collapsed; otherwise it keeps `y`.
   */
  function Bob(exploded: bool, y: real, wave: real): (r: real)
    requires -1.0 <= wave <= 1.0
    ensures !exploded ==> -0.05 <= r <= 0.05 && r == wave * 0.05
    ensures exploded ==> r == y
  {
    if !exploded then wave * 0.05 else y
  }

  /** The hover id every slice reports: never mistaken for a face. */
  function SliceHoverId(): (h: string)
    ensures ParseFaceHoverId(h) == None
  {
    "bread"
  }
}
